=== FILE: README.md ===
# LinkToSelection, modelled in Dafny

LinkToSelection turns the user's current DOM selection into a short token in the
URL fragment, and turns such a token back into the same selection. This project
models the codec at the centre of `lib/LinkToSelection.js` and proves that it
round-trips:

- **Path encoder** (`pathToContainer`, `getNodeName`). A node is addressed
  relative to `<body>` as `/`-separated steps. Each step is `name` or
  `name.index`. The index counts only same-named siblings. All text nodes
  share the name `@`. An index of 0 is left out. The walk stops at the first
  ancestor-or-self that has an id, written `#id` with every `-` turned into `~`.
- **Path decoder** (`findNode`, `splitPathOnce`). It walks an address back
  down from a context node. `#id` restarts from the element with that id.
  `name[.n]` picks the child whose same-name rank is `n`. Either step fails
  when nothing matches.
- **Selection payload** (`encodePart`, the payload half of
  `calculateSelection`, the string half of `recreateSelection`). The payload
  reads `start[:offset]-end[:offset]`. The end path is `*` when both ends
  share a container. A zero offset is left out. A collapsed range gives no
  payload. The location hash is written only when it changes.

The DOM is a value: `Dom.Node` is a text node, or an element with its
`nodeName`, its `id` ("" when it has none) and its children. The root is
`<body>`. A node is named by its path of child indices from `<body>`, so
`===` on nodes becomes equality of paths, and the upward walk of
`pathToContainer` becomes recursion on the path with its last step removed.
`getElementById` is the first node in document order that carries the id
(`Dom.FindIdFirst`), so a page with duplicate ids resolves `#id` to the
first of them.

The sibling scans of `pathToContainer` (lines 52-57) and `findNode`
(lines 118-125) are methods with loops: `Encoder.SiblingIndex` and
`Resolver.ScanChildren`. They are proved equal to the pure rank functions
`Dom.Rank` and `Dom.NthNamed`. The recursive methods
`Encoder.PathToContainer` and `Resolver.FindNode` call them, and are proved
equal to the functions `Encoder.Address` and `Resolver.Resolve`. The
location hash is a field of the class `SelectionCodec.Location`.

The code does not check what the round trip needs. The lemmas state it as
preconditions:

- ids are unique (`Dom.IdsUnique`);
- every node on the way down from `<body>` has a name and an id the decoder
  reads back (`Encoder.Addressable`): the name is not empty, is not `body`,
  does not start with `#`, and holds no `/` or `.`; the id holds no `/`, `.`
  or `~`;
- for the payload, also `SelectionCodec.Transportable`: names hold no `-` or
  `:` and are not `*`; ids hold no `:`.

The `:` in ids is easy to miss. The `-` of an id is substituted, but a `:`
still splits the endpoint at the offset separator. Custom element names
such as `my-widget` break the payload the same way.

Selecting "Hello" in `<p id="p1">Hello <b>world</b></p>` gives the payload
`#p1/@-*:5`: the start container is the text node inside the paragraph, not
the paragraph itself (`Examples.HelloPayload`).

## Model

| member | source | states |
|---|---|---|
| Strings.IndexOf | lib/LinkToSelection.js:69 | `indexOf` gives -1 exactly when the character is absent; otherwise the position of its first occurrence |
| Strings.Split | lib/LinkToSelection.js:103 | `split` gives at least one part |
| Strings.SplitHasNoSeparator | lib/LinkToSelection.js:103 | no part of a split holds the separator |
| Strings.JoinSplit | lib/LinkToSelection.js:103 | joining the parts of a split with the separator gives the input back |
| Strings.SplitJoin | lib/LinkToSelection.js:131-133 | splitting parts joined by a separator gives the parts back when none holds it |
| Strings.NatToString | lib/LinkToSelection.js:60 | a number is written as a non-empty run of decimal digits, starting with `0` only for 0 itself: no leading zeros |
| Strings.ParseNatToString | lib/LinkToSelection.js:105 | reading back the decimal string of a number gives the number |
| Strings.SubstituteHyphens | lib/LinkToSelection.js:46 | the written id has no `-` and the same length; only `-` and `~` are affected |
| Strings.RestoreHyphens | lib/LinkToSelection.js:108 | the restored id has the same length as the encoded one |
| Strings.RestoredHyphens | lib/LinkToSelection.js:108 | the restored id holds no `~`, and every other character stays in place |
| Strings.RestoreSubstituteHyphens | lib/LinkToSelection.js:108 | restoring a substituted id gives it back if and only if the id holds no `~` |
| Dom.NodeName | lib/LinkToSelection.js:35-41 | an element's reported name is as long as its tag name |
| Dom.NodeNameLowerCase | lib/LinkToSelection.js:35-41 | every text node is named `@`; a reported name holds no upper-case letter whose lower case lies in Latin-1; a tag name without one is reported unchanged |
| Dom.ToLower | lib/LinkToSelection.js:39 | lower-casing keeps the length of the name |
| Examples.LatinTagName | lib/LinkToSelection.js:39 | a tag `PÉ` is reported as `pé` |
| Examples.KelvinTagName | lib/LinkToSelection.js:39 | a tag `a` followed by the Kelvin sign U+212A is reported as `ak`, the same name as `ak` |
| Dom.LowerCased | lib/LinkToSelection.js:39 | the lower-cased name holds no upper-case letter whose lower case lies in Latin-1, keeps every other character, and is unchanged by a second lower-casing |
| Dom.NthNamed | lib/LinkToSelection.js:116-126 | the scan returns a position among the children |
| Dom.NthNamedFinds | lib/LinkToSelection.js:116-126 | the child found has the name and exactly n same-named siblings before it; none is found only when no child does |
| Dom.CountMonotone | lib/LinkToSelection.js:118-120 | the count of same-named siblings never drops as the scan moves right |
| Dom.NthUnique | lib/LinkToSelection.js:118-125 | at most one child has a given same-name rank |
| Dom.NthIsFound | lib/LinkToSelection.js:116-126 | the scan returns exactly the child that is the n-th of its name |
| Dom.RankIsFound | lib/LinkToSelection.js:51-57 | the rank the encoder counts for a child makes the decoder's scan find that same child |
| Dom.SiblingFound | lib/LinkToSelection.js:116-126 | scanning a node's siblings for its own name and rank finds the node itself |
| Dom.FindId | lib/LinkToSelection.js:109 | a node that `getElementById` returns exists and carries the requested non-empty id |
| Dom.FindIdFirst | lib/LinkToSelection.js:109 | the lookup finds a node for every id some node carries, and the node found is that node or one before it in document order: the first carrier |
| Dom.FindIdComplete | lib/LinkToSelection.js:109-110 | every non-empty id that some node carries is found |
| Dom.FindUniqueId | lib/LinkToSelection.js:109 | with unique ids, the lookup returns the one node that carries the id |
| Encoder.SiblingIndex | lib/LinkToSelection.js:49-57 | the loop leaves `index` at the node's rank among same-named siblings |
| Encoder.PathToContainer | lib/LinkToSelection.js:43-62 | the method computes the address of the node |
| Encoder.PathItem | lib/LinkToSelection.js:60 | a step starts with the name, and adds to it exactly when the index is positive |
| Encoder.Address | lib/LinkToSelection.js:43-62 | the body's address is empty, even when the body has an id (the round trip `Resolver.ResolveAddress` is about this function) |
| Encoder.IdAddress | lib/LinkToSelection.js:46 | unfolds `Encoder.Address` for a node with an id: `#` and the substituted id; adds that this address holds no `-` |
| Encoder.RelativeAddress | lib/LinkToSelection.js:51-61 | unfolds `Encoder.Address` for a node without an id: its parent's address, `/` and its step, or the step alone under the body |
| Encoder.AddressEnd | lib/LinkToSelection.js:60-61 | an address is empty only for the body and never ends in `/` |
| Encoder.AnchoredAddress | lib/LinkToSelection.js:46 | the address starts with `#` exactly when some node on the way down has an id |
| Resolver.SplitPathOnce | lib/LinkToSelection.js:68-71 | the head has no `/`; head, `/` and tail give the input back; with no `/` the tail is absent |
| Resolver.SplitPathOnceAt | lib/LinkToSelection.js:68-71 | a string splits at its first `/` in only one way |
| Resolver.IndexValue | lib/LinkToSelection.js:105 | a missing index is 0; a decimal index is its value |
| Resolver.IndexOperand | lib/LinkToSelection.js:105 | the index operand is present exactly when the segment has a non-empty second part, and is that part |
| Resolver.Step | lib/LinkToSelection.js:101-126 | one step that succeeds leads to a node of the document |
| Resolver.Resolve | lib/LinkToSelection.js:97-98 | an empty or missing path resolves to the context node; a success is a node of the document |
| Resolver.ScanChildren | lib/LinkToSelection.js:116-126 | the loop stops at exactly the child whose same-name rank is the index, or finds none |
| Resolver.FindNode | lib/LinkToSelection.js:97-127 | the method computes the resolution of the path from the context node |
| Resolver.ResolveConcat | lib/LinkToSelection.js:101-111 | resolving `s/t` resolves `s`, then `t` from the node `s` led to |
| Resolver.ThenConcat | lib/LinkToSelection.js:101-111 | continuing with `s/t` after a step continues with `s`, then with `t`, and passes a failed step's error on |
| Resolver.PathItemSplit | lib/LinkToSelection.js:58-60 | a step `name[.n]` holds no `/` and splits at `.` into the name and, for n > 0, its digits |
| Resolver.StepNamed | lib/LinkToSelection.js:103-126 | a segment that splits into a name and an optional index picks the child of that rank, or fails naming both |
| Resolver.ResolveNamedStep | lib/LinkToSelection.js:103-105 | `name` or `name.n` leads to the child of rank n (0 by default) among those named `name`, and fails when there is none |
| Resolver.ResolveIdStep | lib/LinkToSelection.js:107-111 | `#x` leads to the node whose id is x with `~` turned into `-`, and fails when there is none |
| Resolver.ResolveAddress | lib/LinkToSelection.js:43-127 | round trip: resolving a node's address from the body gives that node back |
| Resolver.ResolveIdAddress | lib/LinkToSelection.js:107-111 | an id-bearing node is found again through its anchor |
| Resolver.ResolveRelativeAddress | lib/LinkToSelection.js:116-126 | a node without an id is found again from its parent through its own step |
| Resolver.ResolveAppend | lib/LinkToSelection.js:61 | a step appended to a node's address continues the walk from that node |
| Resolver.ResolveFoundStep | lib/LinkToSelection.js:116-126 | when the scan finds a child, the step `name[.n]` leads to it |
| Resolver.ResolveSiblingStep | lib/LinkToSelection.js:118-125 | the step the encoder writes for a node leads back to it from its parent |
| SelectionCodec.EncodePart | lib/LinkToSelection.js:64-66 | an endpoint starts with its path, and adds to it exactly when the offset is not 0 |
| SelectionCodec.OffsetOf | lib/LinkToSelection.js:137-138 | a missing or empty offset reads as 0 |
| SelectionCodec.EncodePartRoundTrip | lib/LinkToSelection.js:64-66 | splitting an encoded part at `:` gives back the path and the offset, a left-out offset being 0 |
| SelectionCodec.EncodePayload | lib/LinkToSelection.js:78-86 | there is no payload exactly when the range is collapsed |
| SelectionCodec.DecodePayload | lib/LinkToSelection.js:131-138 | a decoded range has both containers in the document |
| SelectionCodec.AddressTransportable | lib/LinkToSelection.js:86 | a transportable address holds neither `-` nor `:` and is never `*` |
| SelectionCodec.PartsSplit | lib/LinkToSelection.js:131 | the payload splits at `-` into exactly the two encoded endpoints |
| SelectionCodec.PartHasNoRangeSeparator | lib/LinkToSelection.js:64-66 | adding an offset brings in no `-` |
| SelectionCodec.SameContainerMarker | lib/LinkToSelection.js:85 | with both ends in one container the end path is exactly `*` |
| SelectionCodec.PayloadRoundTrip | lib/LinkToSelection.js:78-138 | decoding the payload of a non-collapsed range gives back both containers and both offsets |
| SelectionCodec.StripPadding | lib/LinkToSelection.js:88 | the token has no `=`, and is unchanged when it had none |
| SelectionCodec.StripPaddingAppend | lib/LinkToSelection.js:88 | removing `=` works character by character: it distributes over concatenation |
| SelectionCodec.StripTrailingPadding | lib/LinkToSelection.js:88 | Base64 text followed by `=` padding loses exactly the padding |
| SelectionCodec.HashToken | lib/LinkToSelection.js:88 | the token starts with `sel:` and holds no `=` after it |
| SelectionCodec.Location.SetHash | lib/LinkToSelection.js:93 | assigning the hash stores it behind a `#` and counts one write |
| SelectionCodec.CalculateSelection | lib/LinkToSelection.js:73-95 | with no range or a collapsed one nothing changes; otherwise the hash holds the token afterwards, written only if it differed |
| SelectionCodec.CalculateSelectionTwice | lib/LinkToSelection.js:90-94 | encoding the same selection twice writes the hash at most once |
| Examples.HelloPayload | lib/LinkToSelection.js:84-86 | selecting "Hello" under `<p id="p1">` gives the payload `#p1/@-*:5` |
| Examples.NoMissingId | lib/LinkToSelection.js:109 | the lookup of an id no node carries finds nothing |
| Examples.ResolveMissingId | lib/LinkToSelection.js:107-110 | resolving `#x~y` fails, naming `x-y` |

## Left out

- Base64: `btoa` is a parameter of `SelectionCodec.CalculateSelection`. `atob`, the `sel:` prefix check and `updateFromHash` (lines 175-185) are not modelled. Decoding starts from the Base64-decoded payload.
- The browser's Range and Selection objects (lines 24-33, 147-153). `CalculateSelection` takes the current range as a value, `None` when there is none. Decoding stops at the four values.
- SelectionCodec.CalculateSelection: assumes `btoa` never throws. The browser's `btoa` throws `InvalidCharacterError` on a character above U+00FF, so an id holding such a character, or a name that still holds one after lower-casing, makes line 88 throw and the hash is never written; `btoa` is a total function parameter here, so that failure is not modelled.
- Scrolling (lines 155-167): floating-point geometry and timers.
- The debounce timer, `setInterval` and the event wiring (lines 170-173, 193-203), the `console.warn` catch and the `startsWith` polyfill (lines 179-191).
- The DOM is an immutable tree under `<body>`. Mutation between encoding and decoding is not modelled. Nodes outside `<body>`, and the walk past a node with no parent (lines 50 and 59-61 when `parentNode` is null), are not modelled.
- `getElementById` searches only the `<body>` subtree, not `<head>`.
- Node kinds other than text and element are not separate constructors. A comment is an element whose `nodeName` is `#comment`, which is how `getNodeName` sees it.
- Dom.ToLower: lower-cases only the capitals whose lower case lies in Latin-1: ASCII `A`-`Z`, U+00C0-U+00DE except U+00D7, and U+0178, U+1E9E, U+212A (Kelvin sign, to `k`) and U+212B (Angstrom sign, to `å`). Every other capital keeps, after JavaScript's `toLowerCase`, a character above U+00FF (U+0130 becomes `i` followed by U+0307), so a name holding one cannot reach the hash anyway, since `btoa` rejects it (see the `CalculateSelection` line). On such a page the model's address differs from the source's, but the round trip still holds, because encoder and decoder share `NodeName`.
- Resolver.IndexValue: treats only decimal digit strings as numbers. JavaScript's `==` also accepts other spellings (surrounding blanks, `0x` hex, exponents); the model treats those as matching no child.
- SelectionCodec.OffsetOf: rejects a non-decimal offset with `BadOffset`. The source hands the raw text to the browser's `Range.setStart`, whose number conversion is not part of this model.

=== FILE: dom.dfy ===
/**
 * The part of the DOM the codec reads: the subtree under <body>, node names
 * as `getNodeName` reports them, ids, and `document.getElementById`.
 * A node is identified by its path of child indices from <body>.
 */
module Dom {
  import opened Wrappers

  /**
   * A text node, or an element with its `nodeName` as the DOM reports it,
   * its `id` attribute ("" when it has none) and its child nodes.
   */
  datatype Node = Text | Element(nodeName: string, id: string, children: seq<Node>)

  /** The synthetic name shared by all text nodes. */
  const SELECTOR_TEXT := "@"

  /**
   * An upper-case letter whose lower-case form `toLowerCase` writes within
   * Latin-1: ASCII `A`-`Z`, the Latin-1 capitals U+00C0-U+00DE except the
   * multiplication sign U+00D7, and the four capitals beyond Latin-1 whose
   * lower case lies inside it (U+0178, U+1E9E, U+212A, U+212B).
   */
  predicate IsUpper(c: char) {
    ('A' <= c <= 'Z') || ('\U{00C0}' <= c <= '\U{00DE}' && c != '\U{00D7}')
    || c == '\U{0178}' || c == '\U{1E9E}' || c == '\U{212A}' || c == '\U{212B}'
  }

  /** The lower-case form of one character. */
  function LowerChar(c: char): char {
    if c == '\U{0178}' then '\U{00FF}'       // LATIN CAPITAL LETTER Y WITH DIAERESIS
    else if c == '\U{1E9E}' then '\U{00DF}'  // LATIN CAPITAL LETTER SHARP S
    else if c == '\U{212A}' then 'k'         // KELVIN SIGN
    else if c == '\U{212B}' then '\U{00E5}'  // ANGSTROM SIGN
    else if IsUpper(c) then (c as int + 32) as char
    else c
  }

  /** `toLowerCase` for every name that can reach the hash: each upper-case letter becomes its lower-case form. */
  function ToLower(s: string): (r: string)
    ensures |r| == |s|
  {
    seq(|s|, k requires 0 <= k < |s| => LowerChar(s[k]))
  }

  /** Lower-casing leaves no upper-case letter, keeps every other character, and changes nothing a second time. */
  lemma LowerCased(s: string)
    ensures forall k :: 0 <= k < |s| ==> !IsUpper(ToLower(s)[k])
    ensures forall k :: 0 <= k < |s| && !IsUpper(s[k]) ==> ToLower(s)[k] == s[k]
    ensures ToLower(ToLower(s)) == ToLower(s)
  {
    forall c: char
      ensures !IsUpper(LowerChar(c)) && (!IsUpper(c) ==> LowerChar(c) == c)
    {
    }
  }

  /** `getNodeName`: "@" for every text node, the lower-cased tag otherwise. */
  function NodeName(n: Node): (r: string)
    ensures n.Element? ==> |r| == |n.nodeName|
  {
    match n
    case Text => SELECTOR_TEXT
    case Element(name, _, _) => ToLower(name)
  }

  /** Every text node is named `@`; a reported name never holds an upper-case letter; an element's name without one is reported as it is. */
  lemma NodeNameLowerCase(n: Node)
    ensures n.Text? ==> NodeName(n) == SELECTOR_TEXT
    ensures forall k :: 0 <= k < |NodeName(n)| ==> !IsUpper(NodeName(n)[k])
    ensures n.Element? && (forall k :: 0 <= k < |n.nodeName| ==> !IsUpper(n.nodeName[k])) ==> NodeName(n) == n.nodeName
  {
    if n.Element? {
      LowerCased(n.nodeName);
    }
  }

  function Children(n: Node): seq<Node> {
    if n.Element? then n.children else []
  }

  /** `elem.id`; text nodes have none. */
  function Id(n: Node): string {
    if n.Element? then n.id else ""
  }

  /** The root of the model is the document body. */
  predicate IsBody(root: Node) {
    root.Element? && NodeName(root) == "body"
  }

  function Parent(p: seq<nat>): seq<nat>
    requires p != []
  {
    p[..|p| - 1]
  }

  function Last(p: seq<nat>): nat
    requires p != []
  {
    p[|p| - 1]
  }

  lemma ParentLast(p: seq<nat>)
    requires p != []
    ensures Parent(p) + [Last(p)] == p
  {
  }

  /** `p` names a node of the tree under `root`. */
  predicate ValidPath(root: Node, p: seq<nat>)
    decreases |p|, 0
  {
    p == [] || (ValidPath(root, Parent(p)) && Last(p) < |Children(At(root, Parent(p)))|)
  }

  /** The node that `p` names. */
  function At(root: Node, p: seq<nat>): Node
    requires ValidPath(root, p)
    decreases |p|, 1
  {
    if p == [] then root else Children(At(root, Parent(p)))[Last(p)]
  }

  /** A path into a child's subtree is a path into its parent's, one step longer at the front. */
  lemma {:induction false} PrependPath(n: Node, i: nat, q: seq<nat>)
    requires i < |Children(n)|
    ensures ValidPath(n, [i] + q) == ValidPath(Children(n)[i], q)
    ensures ValidPath(n, [i] + q) ==> At(n, [i] + q) == At(Children(n)[i], q)
    decreases |q|
  {
    if q != [] {
      assert Parent([i] + q) == [i] + Parent(q);
      assert Last([i] + q) == Last(q);
      PrependPath(n, i, Parent(q));
    } else {
      assert Parent([i]) == [];
    }
  }

  /** Every path starts with a step into one of the root's children. */
  lemma SplitFirstStep(n: Node, p: seq<nat>)
    requires p != [] && ValidPath(n, p)
    ensures p[0] < |Children(n)|
    ensures ValidPath(Children(n)[p[0]], p[1..]) && At(Children(n)[p[0]], p[1..]) == At(n, p)
    decreases |p|
  {
    FirstStepInRange(n, p);
    assert [p[0]] + p[1..] == p;
    PrependPath(n, p[0], p[1..]);
  }

  lemma {:induction false} FirstStepInRange(n: Node, p: seq<nat>)
    requires p != [] && ValidPath(n, p)
    ensures p[0] < |Children(n)|
    decreases |p|
  {
    if |p| > 1 {
      FirstStepInRange(n, Parent(p));
    }
  }

  // ----- sibling ranks -----

  /** The number of nodes among the first `i` of `cs` whose name is `name`. */
  function CountBefore(cs: seq<Node>, name: string, i: nat): nat
    requires i <= |cs|
  {
    if i == 0 then 0
    else CountBefore(cs, name, i - 1) + (if NodeName(cs[i - 1]) == name then 1 else 0)
  }

  /** The rank of `siblings[k]` among its same-named siblings: how many come before it. */
  function Rank(siblings: seq<Node>, k: nat): nat
    requires k < |siblings|
  {
    CountBefore(siblings, NodeName(siblings[k]), k)
  }

  /** `cs[i]` is the `n`-th (from 0) node of `cs` named `name`. */
  predicate IsNth(cs: seq<Node>, name: string, n: nat, i: nat)
    requires i < |cs|
  {
    NodeName(cs[i]) == name && CountBefore(cs, name, i) == n
  }

  lemma CountStep(cs: seq<Node>, name: string, i: nat)
    requires i < |cs|
    ensures CountBefore(cs, name, i + 1) == CountBefore(cs, name, i) + (if NodeName(cs[i]) == name then 1 else 0)
  {
  }

  lemma {:induction false} CountMonotone(cs: seq<Node>, name: string, i: nat, j: nat)
    requires i <= j <= |cs|
    ensures CountBefore(cs, name, i) <= CountBefore(cs, name, j)
    decreases j - i
  {
    if i < j {
      CountMonotone(cs, name, i, j - 1);
    }
  }

  /** At most one child is the `n`-th of a given name. */
  lemma NthUnique(cs: seq<Node>, name: string, n: nat, i: nat, j: nat)
    requires i < |cs| && j < |cs|
    requires IsNth(cs, name, n, i) && IsNth(cs, name, n, j)
    ensures i == j
  {
    if i < j {
      NthUniqueOrdered(cs, name, n, i, j);
    } else if j < i {
      NthUniqueOrdered(cs, name, n, j, i);
    }
  }

  lemma NthUniqueOrdered(cs: seq<Node>, name: string, n: nat, i: nat, j: nat)
    requires i < j < |cs|
    requires IsNth(cs, name, n, i)
    ensures CountBefore(cs, name, j) > n
  {
    CountStep(cs, name, i);
    CountMonotone(cs, name, i + 1, j);
  }

  /** The first of the first `m` nodes of `cs` whose same-name rank is `n`. */
  function NthNamedBelow(cs: seq<Node>, name: string, n: nat, m: nat): (r: Option<nat>)
    requires m <= |cs|
    ensures r.Some? ==> r.value < m
  {
    if m == 0 then None
    else
      match NthNamedBelow(cs, name, n, m - 1)
      case Some(i) => Some(i)
      case None => if IsNth(cs, name, n, m - 1) then Some(m - 1) else None
  }

  /** The child whose same-name rank is `n`, found by scanning `cs` in order. */
  function NthNamed(cs: seq<Node>, name: string, n: nat): (r: Option<nat>)
    ensures r.Some? ==> r.value < |cs|
  {
    NthNamedBelow(cs, name, n, |cs|)
  }

  /** The scan of the first `m` nodes finds the `n`-th node named `name` among them when there is one, and nothing otherwise. */
  lemma {:induction false} NthNamedBelowFinds(cs: seq<Node>, name: string, n: nat, m: nat)
    requires m <= |cs|
    ensures NthNamedBelow(cs, name, n, m).Some? ==> IsNth(cs, name, n, NthNamedBelow(cs, name, n, m).value)
    ensures NthNamedBelow(cs, name, n, m).None? ==> forall i :: 0 <= i < m ==> !IsNth(cs, name, n, i)
  {
    if m > 0 {
      NthNamedBelowFinds(cs, name, n, m - 1);
    }
  }

  /** The scan finds the `n`-th node named `name` when there is one, and nothing when there is none. */
  lemma NthNamedFinds(cs: seq<Node>, name: string, n: nat)
    ensures NthNamed(cs, name, n).Some? ==> IsNth(cs, name, n, NthNamed(cs, name, n).value)
    ensures NthNamed(cs, name, n).None? ==> forall i :: 0 <= i < |cs| ==> !IsNth(cs, name, n, i)
  {
    NthNamedBelowFinds(cs, name, n, |cs|);
  }

  /** The scan returns the one node that is the `n`-th of its name. */
  lemma NthIsFound(cs: seq<Node>, name: string, n: nat, i: nat)
    requires i < |cs| && IsNth(cs, name, n, i)
    ensures NthNamed(cs, name, n) == Some(i)
  {
    NthNamedFinds(cs, name, n);
    NthUnique(cs, name, n, NthNamed(cs, name, n).value, i);
  }

  /** The encoder's rank and the decoder's scan agree: rank `k` of name `x` is found at `k`. */
  lemma RankIsFound(siblings: seq<Node>, k: nat)
    requires k < |siblings|
    ensures NthNamed(siblings, NodeName(siblings[k]), Rank(siblings, k)) == Some(k)
  {
    NthIsFound(siblings, NodeName(siblings[k]), Rank(siblings, k), k);
  }

  /** The scan over a node's siblings finds the node itself at its own rank. */
  lemma SiblingFound(root: Node, p: seq<nat>)
    requires ValidPath(root, p) && p != []
    ensures NthNamed(Children(At(root, Parent(p))), NodeName(At(root, p)), Rank(Children(At(root, Parent(p))), Last(p))) == Some(Last(p))
  {
    RankIsFound(Children(At(root, Parent(p))), Last(p));
  }

  // ----- getElementById -----

  /** `getElementById(id)` on the subtree of `n`: the first node in document order carrying `id`. */
  function FindId(n: Node, id: string): (r: Option<seq<nat>>)
    ensures r.Some? ==> id != "" && ValidPath(n, r.value) && Id(At(n, r.value)) == id
    decreases n, 1
  {
    if id != "" && Id(n) == id then Some([])
    else FindIdInChildren(n, id, 0)
  }

  /** The search of `FindId` continued over the children of `n` from the `i`-th. */
  function FindIdInChildren(n: Node, id: string, i: nat): (r: Option<seq<nat>>)
    requires i <= |Children(n)|
    ensures r.Some? ==> id != "" && ValidPath(n, r.value) && Id(At(n, r.value)) == id
    decreases n, 0, |Children(n)| - i
  {
    if i == |Children(n)| then None
    else
      var child := n.children[i];
      match FindId(child, id)
      case Some(q) =>
        PrependPath(n, i, q);
        Some([i] + q)
      case None => FindIdInChildren(n, id, i + 1)
  }

  /** Every id that some node carries is found. */
  lemma {:induction false} FindIdComplete(n: Node, p: seq<nat>, id: string)
    requires ValidPath(n, p) && id != "" && Id(At(n, p)) == id
    ensures FindId(n, id).Some?
    decreases |p|
  {
    if p != [] && !(Id(n) == id) {
      SplitFirstStep(n, p);
      FindIdComplete(Children(n)[p[0]], p[1..], id);
      FindIdInChildrenReaches(n, id, 0, p[0]);
    }
  }

  lemma {:induction false} FindIdInChildrenReaches(n: Node, id: string, i: nat, j: nat)
    requires i <= j < |Children(n)|
    requires FindId(Children(n)[j], id).Some?
    ensures FindIdInChildren(n, id, i).Some?
    decreases j - i
  {
    if i < j {
      FindIdInChildrenReaches(n, id, i + 1, j);
    }
  }

  /**
   * `p` comes before `q` in document order: `p` names an ancestor of `q`, or
   * at the first step where they part, `p` takes an earlier child.
   */
  predicate Before(p: seq<nat>, q: seq<nat>)
    decreases |q|
  {
    q != [] && (p == [] || p[0] < q[0] || (p[0] == q[0] && Before(p[1..], q[1..])))
  }

  /** `getElementById` returns the first node in document order that carries the id. */
  lemma {:induction false} FindIdFirst(n: Node, q: seq<nat>, id: string)
    requires ValidPath(n, q) && id != "" && Id(At(n, q)) == id
    ensures FindId(n, id).Some?
    ensures FindId(n, id).value == q || Before(FindId(n, id).value, q)
    decreases |q|
  {
    if Id(n) != id {
      SplitFirstStep(n, q);
      var child := Children(n)[q[0]];
      FindIdFirst(child, q[1..], id);
      FindIdInChildrenFirst(n, id, 0, q);
    }
  }

  lemma {:induction false} FindIdInChildrenFirst(n: Node, id: string, i: nat, q: seq<nat>)
    requires q != [] && i <= q[0] < |Children(n)|
    requires FindId(Children(n)[q[0]], id).Some?
    requires FindId(Children(n)[q[0]], id).value == q[1..] || Before(FindId(Children(n)[q[0]], id).value, q[1..])
    ensures FindIdInChildren(n, id, i).Some?
    ensures FindIdInChildren(n, id, i).value == q || Before(FindIdInChildren(n, id, i).value, q)
    decreases q[0] - i
  {
    match FindId(n.children[i], id)
    case Some(r) =>
      var found := [i] + r;
      assert found[0] == i && found[1..] == r;
      if i == q[0] && r == q[1..] {
        assert found == q;
      }
    case None =>
      FindIdInChildrenFirst(n, id, i + 1, q);
  }

  /** No two nodes share a non-empty id. */
  ghost predicate IdsUnique(root: Node) {
    forall p, q ::
      ValidPath(root, p) && ValidPath(root, q) && Id(At(root, p)) != "" && Id(At(root, p)) == Id(At(root, q))
      ==> p == q
  }

  /** With unique ids, `getElementById` returns the one node that carries the id. */
  lemma FindUniqueId(root: Node, p: seq<nat>)
    requires IdsUnique(root) && ValidPath(root, p) && Id(At(root, p)) != ""
    ensures FindId(root, Id(At(root, p))) == Some(p)
  {
    FindIdComplete(root, p, Id(At(root, p)));
  }
}

=== FILE: encoder.dfy ===
/**
 * The path encoder: `pathToContainer` addresses a node relative to <body>
 * as `/`-separated steps `name` or `name.index`, cut short at the nearest
 * ancestor-or-self with an id, which is written `#id` with `-` turned into `~`.
 */
module Encoder {
  import opened Strings
  import opened Dom

  const ID_SELECTOR_PREFIX := '#'
  const PATH_SEPARATOR := '/'
  const INDEX_SEPARATOR := '.'

  /** One relative step: the name, with `.index` only when the index is positive. */
  function PathItem(name: string, index: nat): (r: string)
    ensures |r| >= |name| && r[..|name|] == name
    ensures r == name <==> index == 0
  {
    if index > 0 then name + [INDEX_SEPARATOR] + NatToString(index) else name
  }

  /** The address `pathToContainer` computes for the node at `p`. */
  function Address(root: Node, p: seq<nat>): (a: string)
    requires IsBody(root) && ValidPath(root, p)
    ensures p == [] ==> a == ""
    decreases |p|
  {
    var elem := At(root, p);
    var nodeName := NodeName(elem);
    if nodeName == "body" then ""
    else if Id(elem) != "" then [ID_SELECTOR_PREFIX] + SubstituteHyphens(Id(elem))
    else
      var index := Rank(Children(At(root, Parent(p))), Last(p));
      var parentPath := Address(root, Parent(p));
      var pathItem := PathItem(nodeName, index);
      if parentPath != "" then parentPath + [PATH_SEPARATOR] + pathItem else pathItem
  }

  /** The sibling scan of `pathToContainer`: count same-named siblings up to and including `siblings[k]`. */
  method SiblingIndex(siblings: seq<Node>, k: nat) returns (index: int)
    requires k < |siblings|
    ensures index == Rank(siblings, k)
  {
    var nodeName := NodeName(siblings[k]);
    index := -1;
    var i := 0;
    while i < |siblings|
      invariant 0 <= i <= k
      invariant index == CountBefore(siblings, nodeName, i) - 1
    {
      if NodeName(siblings[i]) == nodeName {
        index := index + 1;
        if i == k {
          break;
        }
      }
      i := i + 1;
    }
  }

  /** `pathToContainer`, walking up from the node to <body>. */
  method PathToContainer(root: Node, p: seq<nat>) returns (path: string)
    requires IsBody(root) && ValidPath(root, p)
    ensures path == Address(root, p)
    decreases |p|
  {
    var elem := At(root, p);
    var nodeName := NodeName(elem);
    if nodeName == "body" {
      return "";
    }
    if Id(elem) != "" {
      return [ID_SELECTOR_PREFIX] + SubstituteHyphens(Id(elem));
    }
    var index := SiblingIndex(Children(At(root, Parent(p))), Last(p));
    var parentPath := PathToContainer(root, Parent(p));
    var pathItem := if index > 0 then nodeName + [INDEX_SEPARATOR] + NatToString(index) else nodeName;
    path := if parentPath != "" then parentPath + [PATH_SEPARATOR] + pathItem else pathItem;
  }

  // ----- which documents the codec can address -----

  /** A name the decoder reads back as a relative step. */
  predicate NameAddressable(name: string) {
    StepName(name) && name != "body"
  }

  /** A name the decoder reads back as a relative step: not empty, not an anchor, and free of both separators. */
  predicate StepName(name: string) {
    name != "" && name[0] != ID_SELECTOR_PREFIX && PATH_SEPARATOR !in name && INDEX_SEPARATOR !in name
  }

  /** An id the decoder reads back as an anchor. */
  predicate IdAddressable(id: string) {
    PATH_SEPARATOR !in id && INDEX_SEPARATOR !in id && '~' !in id
  }

  /** Every node on the way from <body> to `p` has a name and id the decoder reads back. */
  predicate Addressable(root: Node, p: seq<nat>)
    requires ValidPath(root, p)
    decreases |p|
  {
    p == [] || (Addressable(root, Parent(p)) && NameAddressable(NodeName(At(root, p))) && IdAddressable(Id(At(root, p))))
  }

  /** Some node on the way from <body> (exclusive) to `p` (inclusive) has an id. */
  predicate Anchored(root: Node, p: seq<nat>)
    requires ValidPath(root, p)
    decreases |p|
  {
    p != [] && (Id(At(root, p)) != "" || Anchored(root, Parent(p)))
  }

  /** An address never ends in a path separator, and is empty only for the body. */
  lemma AddressEnd(root: Node, p: seq<nat>)
    requires IsBody(root) && ValidPath(root, p) && Addressable(root, p)
    ensures Address(root, p) == "" <==> p == []
    ensures Address(root, p) != "" ==> Address(root, p)[|Address(root, p)| - 1] != PATH_SEPARATOR
  {
    if p != [] {
      var elem := At(root, p);
      var a := Address(root, p);
      if Id(elem) != "" {
        assert PATH_SEPARATOR !in SubstituteHyphens(Id(elem));
        assert a[|a| - 1] == SubstituteHyphens(Id(elem))[|Id(elem)| - 1];
      } else {
        var index := Rank(Children(At(root, Parent(p))), Last(p));
        var item := PathItem(NodeName(elem), index);
        if index > 0 {
          DigitsHaveNoSeparator(NatToString(index), PATH_SEPARATOR);
        }
        assert a[|a| - 1] == item[|item| - 1];
      }
    }
  }

  /**
   * A node with an id anchors the address, however deep it is: the address
   * starts with `#` exactly when some node on the way down carries an id.
   */
  lemma {:induction false} AnchoredAddress(root: Node, p: seq<nat>)
    requires IsBody(root) && ValidPath(root, p) && Addressable(root, p)
    ensures (|Address(root, p)| > 0 && Address(root, p)[0] == ID_SELECTOR_PREFIX) <==> Anchored(root, p)
    decreases |p|
  {
    if p != [] && Id(At(root, p)) == "" {
      AnchoredAddress(root, Parent(p));
      var parentPath := Address(root, Parent(p));
      var item := PathItem(NodeName(At(root, p)), Rank(Children(At(root, Parent(p))), Last(p)));
      assert item[0] == NodeName(At(root, p))[0];
      if parentPath != "" {
        assert Address(root, p)[0] == parentPath[0];
      }
    }
  }

  /** An id-bearing node other than the body is addressed by its id alone, which never holds the range separator `-`. */
  lemma IdAddress(root: Node, p: seq<nat>)
    requires IsBody(root) && ValidPath(root, p) && p != [] && NodeName(At(root, p)) != "body"
    requires Id(At(root, p)) != ""
    ensures Address(root, p) == [ID_SELECTOR_PREFIX] + SubstituteHyphens(Id(At(root, p)))
    ensures '-' !in Address(root, p)
  {
  }

  /** A node without an id (other than the body) is addressed by its parent's address and its own step. */
  lemma RelativeAddress(root: Node, p: seq<nat>)
    requires IsBody(root) && ValidPath(root, p) && Addressable(root, p) && p != []
    requires Id(At(root, p)) == ""
    ensures var parentPath := Address(root, Parent(p));
            var item := PathItem(NodeName(At(root, p)), Rank(Children(At(root, Parent(p))), Last(p)));
            Address(root, p) == if parentPath != "" then parentPath + [PATH_SEPARATOR] + item else item
  {
  }
}

=== FILE: examples.dfy ===
/**
 * Worked payloads on a small page:
 *   <body><p id="p1">Hello <b>world</b></p></body>
 */
module Examples {
  import opened Wrappers
  import opened Strings
  import opened Dom
  import opened Encoder
  import opened Resolver
  import opened SelectionCodec

  function Page(): Node {
    Element("BODY", "", [Element("P", "p1", [Text, Element("B", "", [Text])])])
  }

  /** Selecting "Hello" in the first text node: the container is the text node under #p1. */
  lemma HelloPayload()
    ensures IsBody(Page())
    ensures EncodePayload(Page(), Range([0, 0], 0, [0, 0], 5)) == Some("#p1/@-*:5")
  {
    var root := Page();
    assert ToLower("BODY") == "body";
    assert ToLower("P") == "p";
    assert ValidPath(root, [0]);
    assert Parent([0, 0]) == [0];
    assert ValidPath(root, [0, 0]);
    assert At(root, [0]) == root.children[0];
    assert At(root, [0, 0]) == Text;
    assert Address(root, [0]) == "#p1";
    assert Rank(Children(At(root, [0])), 0) == 0;
    assert Address(root, [0, 0]) == "#p1/@";
    assert NatToString(5) == "5";
    assert EncodePart("*", 5) == "*:5";
    assert EncodePart("#p1/@", 0) == "#p1/@";
    assert "#p1/@" + [RANGE_SEPARATOR] + "*:5" == "#p1/@-*:5";
  }

  /** No node of the page carries the id "x-y". */
  lemma NoMissingId()
    ensures FindId(Page(), "x-y") == None
  {
    var root := Page();
    var p := root.children[0];
    var b := p.children[1];
    assert FindId(Text, "x-y") == None by {
      assert FindIdInChildren(Text, "x-y", 0) == None;
    }
    assert FindId(b, "x-y") == None by {
      assert FindIdInChildren(b, "x-y", 1) == None;
      assert FindIdInChildren(b, "x-y", 0) == None;
    }
    assert FindIdInChildren(p, "x-y", 2) == None;
    assert FindIdInChildren(p, "x-y", 1) == None;
    assert FindIdInChildren(p, "x-y", 0) == None;
    assert FindId(p, "x-y") == None;
    assert FindIdInChildren(root, "x-y", 1) == None;
    assert FindIdInChildren(root, "x-y", 0) == None;
  }

  /** Resolving an anchor to an id the page lacks fails, naming the id with its hyphens restored. */
  lemma ResolveMissingId()
    ensures Resolve(Page(), [], Some("#x~y")) == Err(IdNotFound("x-y"))
  {
    var encoded := "x~y";
    assert PATH_SEPARATOR !in encoded && INDEX_SEPARATOR !in encoded;
    assert "#x~y" == [ID_SELECTOR_PREFIX] + encoded;
    ResolveIdStep(Page(), [], encoded);
    assert RestoreHyphens(encoded) == "x-y";
    NoMissingId();
  }

  /** A tag with a Latin-1 capital is reported fully lower-cased: `PÉ` becomes `pé`. */
  lemma LatinTagName()
    ensures NodeName(Element("P\U{00C9}", "", [])) == "p\U{00E9}"
  {
    assert ToLower("P\U{00C9}") == "p\U{00E9}";
  }

  /** The Kelvin sign lower-cases to ASCII `k`, so `aK` with it is reported as `ak`. */
  lemma KelvinTagName()
    ensures NodeName(Element("a\U{212A}", "", [])) == "ak"
  {
    assert ToLower("a\U{212A}") == "ak";
  }
}

=== FILE: resolver.dfy ===
/**
 * The path decoder: `findNode` walks an address back down from a context
 * node, one `/`-separated step at a time. `#id` restarts from the element
 * with that id; `name[.n]` picks the child whose same-name rank is `n`.
 */
module Resolver {
  import opened Wrappers
  import opened Strings
  import opened Dom
  import opened Encoder

  /** The two errors `findNode` throws. */
  datatype NotFound =
    | IdNotFound(id: string)
    | ChildNotFound(nodeName: string, nodeIndex: Option<string>)

  /** `splitPathOnce`: the text before the first `/`, and the text after it when there is one. */
  function SplitPathOnce(s: string): (r: (string, Option<string>))
    ensures PATH_SEPARATOR !in r.0
    ensures r.1.None? ==> r.0 == s && PATH_SEPARATOR !in s
    ensures r.1.Some? ==> r.0 + [PATH_SEPARATOR] + r.1.value == s
  {
    var i := IndexOf(s, PATH_SEPARATOR);
    if i == -1 then (s, None)
    else
      assert s == s[..i] + [PATH_SEPARATOR] + s[i + 1..];
      (s[..i], Some(s[i + 1..]))
  }

  /** A string splits at its first separator in only one way. */
  lemma SplitPathOnceAt(head: string, tail: string)
    requires PATH_SEPARATOR !in head
    ensures SplitPathOnce(head + [PATH_SEPARATOR] + tail) == (head, Some(tail))
  {
    var s := head + [PATH_SEPARATOR] + tail;
    IndexOfAfterPrefix(head, PATH_SEPARATOR, tail);
    assert s[..|head|] == head;
    assert s[|head| + 1..] == tail;
  }

  /** `a[1] || 0` read as a number: absent or empty is 0, decimal digits their value, anything else no number. */
  function IndexValue(nodeIndex: Option<string>): (r: Option<nat>)
    ensures nodeIndex.None? ==> r == Some(0)
    ensures nodeIndex.Some? && IsDecimal(nodeIndex.value) ==> r == Some(ParseDecimal(nodeIndex.value))
  {
    match nodeIndex
    case None => Some(0)
    case Some(s) =>
      if AllDigits(s) then Some(ParseDecimal(s)) else None
  }

  /** The `nodeIndex` operand: `a[1]`, or `0` when it is missing or empty. */
  function IndexOperand(a: seq<string>): (r: Option<string>)
    ensures r.Some? <==> |a| > 1 && a[1] != ""
    ensures r.Some? ==> r.value == a[1]
  {
    if |a| > 1 && a[1] != "" then Some(a[1]) else None
  }

  /** One step of `findNode`: resolve the first segment `head` of the path from `ctx`. */
  function Step(root: Node, ctx: seq<nat>, head: string): (r: Result<seq<nat>, NotFound>)
    requires ValidPath(root, ctx)
    ensures r.Ok? ==> ValidPath(root, r.value)
  {
    var a := Split(head, INDEX_SEPARATOR);
    var nodeName := a[0];
    var nodeIndex := IndexOperand(a);
    if |nodeName| > 0 && nodeName[0] == ID_SELECTOR_PREFIX then
      var id := RestoreHyphens(nodeName[1..]);
      match FindId(root, id)
      case None => Err(IdNotFound(id))
      case Some(node) => Ok(node)
    else
      var children := Children(At(root, ctx));
      match IndexValue(nodeIndex)
      case None => Err(ChildNotFound(nodeName, nodeIndex))
      case Some(n) =>
        match NthNamed(children, nodeName, n)
        case None => Err(ChildNotFound(nodeName, nodeIndex))
        case Some(i) => Ok(ctx + [i])
  }

  /** `findNode(contextNode, path)`; an absent path is `None`. */
  function Resolve(root: Node, ctx: seq<nat>, path: Option<string>): (r: Result<seq<nat>, NotFound>)
    requires ValidPath(root, ctx)
    ensures (path.None? || path == Some("")) ==> r == Ok(ctx)
    ensures r.Ok? ==> ValidPath(root, r.value)
    decreases if path.Some? then |path.value| else 0
  {
    if path.None? || path.value == "" then Ok(ctx)
    else
      var (head, tail) := SplitPathOnce(path.value);
      match Step(root, ctx, head)
      case Err(e) => Err(e)
      case Ok(node) => Resolve(root, node, tail)
  }

  /**
   * The child scan of `findNode`: count the children named `nodeName` and
   * stop at the one whose count reaches `nodeIndex`.
   */
  method ScanChildren(children: seq<Node>, nodeName: string, nodeIndex: nat) returns (found: Option<nat>)
    ensures found == NthNamed(children, nodeName, nodeIndex)
  {
    var index := -1;
    var i := 0;
    while i < |children|
      invariant 0 <= i <= |children|
      invariant index == CountBefore(children, nodeName, i) - 1
      invariant forall j :: 0 <= j < i ==> !IsNth(children, nodeName, nodeIndex, j)
    {
      if NodeName(children[i]) == nodeName {
        index := index + 1;
        if index == nodeIndex {
          NthIsFound(children, nodeName, nodeIndex, i);
          return Some(i);
        }
      }
      assert !IsNth(children, nodeName, nodeIndex, i);
      i := i + 1;
    }
    NthNamedFinds(children, nodeName, nodeIndex);
    return None;
  }

  /** `findNode`: resolve the first segment, then the rest of the path from there. */
  method FindNode(root: Node, contextNode: seq<nat>, path: Option<string>) returns (r: Result<seq<nat>, NotFound>)
    requires ValidPath(root, contextNode)
    ensures r == Resolve(root, contextNode, path)
    decreases if path.Some? then |path.value| else 0
  {
    if path.None? || path.value == "" {
      return Ok(contextNode);
    }
    var parts := SplitPathOnce(path.value);
    var a := Split(parts.0, INDEX_SEPARATOR);
    var nodeName := a[0];
    var nodeIndex := IndexOperand(a);
    var next: seq<nat>;
    if |nodeName| > 0 && nodeName[0] == ID_SELECTOR_PREFIX {
      var id := RestoreHyphens(nodeName[1..]);
      var node := FindId(root, id);
      if node.None? {
        return Err(IdNotFound(id));
      }
      next := node.value;
    } else {
      var target := IndexValue(nodeIndex);
      if target.None? {
        return Err(ChildNotFound(nodeName, nodeIndex));
      }
      var found := ScanChildren(Children(At(root, contextNode)), nodeName, target.value);
      if found.None? {
        return Err(ChildNotFound(nodeName, nodeIndex));
      }
      next := contextNode + [found.value];
    }
    assert Step(root, contextNode, parts.0) == Ok(next);
    r := FindNode(root, next, parts.1);
  }

  /** Resolving `s/t` resolves `s`, then `t` from where `s` led. */
  lemma {:induction false} ResolveConcat(root: Node, ctx: seq<nat>, s: string, t: string)
    requires ValidPath(root, ctx)
    requires s != "" && s[|s| - 1] != PATH_SEPARATOR
    ensures Resolve(root, ctx, Some(s + [PATH_SEPARATOR] + t)) == Then(root, Resolve(root, ctx, Some(s)), Some(t))
    decreases |s|, 1
  {
    var (head, tail) := SplitPathOnce(s);
    var st := s + [PATH_SEPARATOR] + t;
    ResolveUnfold(root, ctx, s, head, tail);
    if tail.None? {
      SplitPathOnceAt(s, t);
      ResolveUnfold(root, ctx, st, s, Some(t));
      ThenNone(root, Step(root, ctx, head));
    } else {
      var rest := tail.value;
      assert st == head + [PATH_SEPARATOR] + (rest + [PATH_SEPARATOR] + t);
      SplitPathOnceAt(head, rest + [PATH_SEPARATOR] + t);
      ResolveUnfold(root, ctx, st, head, Some(rest + [PATH_SEPARATOR] + t));
      assert rest != "" && rest[|rest| - 1] == s[|s| - 1];
      ThenConcat(root, Step(root, ctx, head), rest, t);
    }
  }

  /** Continuing with `s/t` from a step's result continues with `s`, then with `t`. */
  lemma {:induction false} ThenConcat(root: Node, r: Result<seq<nat>, NotFound>, s: string, t: string)
    requires r.Ok? ==> ValidPath(root, r.value)
    requires s != "" && s[|s| - 1] != PATH_SEPARATOR
    ensures Then(root, r, Some(s + [PATH_SEPARATOR] + t)) == Then(root, Then(root, r, Some(s)), Some(t))
    decreases |s|, 2
  {
    if r.Ok? {
      ResolveConcat(root, r.value, s, t);
    }
  }

  /** Continue resolving `tail` from the node an earlier resolution reached, passing its error on. */
  function Then(root: Node, r: Result<seq<nat>, NotFound>, tail: Option<string>): Result<seq<nat>, NotFound>
    requires r.Ok? ==> ValidPath(root, r.value)
  {
    match r
    case Err(e) => Err(e)
    case Ok(node) => Resolve(root, node, tail)
  }

  /** One turn of `findNode` on a non-empty path: its first segment, then the rest. */
  lemma ResolveUnfold(root: Node, ctx: seq<nat>, x: string, head: string, tail: Option<string>)
    requires ValidPath(root, ctx) && x != "" && SplitPathOnce(x) == (head, tail)
    ensures Resolve(root, ctx, Some(x)) == Then(root, Step(root, ctx, head), tail)
  {
  }

  lemma ThenNone(root: Node, r: Result<seq<nat>, NotFound>)
    requires r.Ok? ==> ValidPath(root, r.value)
    ensures Then(root, r, None) == r
  {
  }

  /** A path item `name[.n]` splits at `.` into the name and, when `n` is not 0, its digits. */
  lemma PathItemSplit(name: string, n: nat)
    requires StepName(name)
    ensures PATH_SEPARATOR !in PathItem(name, n)
    ensures Split(PathItem(name, n), INDEX_SEPARATOR) == if n > 0 then [name, NatToString(n)] else [name]
  {
    if n > 0 {
      var digits := NatToString(n);
      DigitsHaveNoSeparator(digits, PATH_SEPARATOR);
      DigitsHaveNoSeparator(digits, INDEX_SEPARATOR);
      assert Join([name, digits], INDEX_SEPARATOR) == PathItem(name, n);
      SplitJoin([name, digits], INDEX_SEPARATOR);
    } else {
      assert Join([name], INDEX_SEPARATOR) == PathItem(name, n);
      SplitJoin([name], INDEX_SEPARATOR);
    }
  }

  /** A path without `/` is resolved in one step. */
  lemma ResolveSingleStep(root: Node, ctx: seq<nat>, head: string)
    requires ValidPath(root, ctx) && head != "" && PATH_SEPARATOR !in head
    ensures Resolve(root, ctx, Some(head)) == Step(root, ctx, head)
  {
    assert SplitPathOnce(head) == (head, None);
  }

  /** The step for a segment that splits into a plain name and an optional index. */
  lemma StepNamed(root: Node, ctx: seq<nat>, head: string, name: string, n: nat)
    requires ValidPath(root, ctx) && StepName(name)
    requires Split(head, INDEX_SEPARATOR) == if n > 0 then [name, NatToString(n)] else [name]
    ensures Step(root, ctx, head) ==
            match NthNamed(Children(At(root, ctx)), name, n)
            case None => Err(ChildNotFound(name, if n > 0 then Some(NatToString(n)) else None))
            case Some(i) => Ok(ctx + [i])
  {
    if n > 0 {
      ParseNatToString(n);
      assert IndexOperand([name, NatToString(n)]) == Some(NatToString(n));
    } else {
      assert IndexOperand([name]) == None;
    }
  }

  /** A relative step `name` or `name.n` picks the child of rank `n` among those named `name`, and fails when there is none. */
  lemma ResolveNamedStep(root: Node, ctx: seq<nat>, name: string, n: nat)
    requires ValidPath(root, ctx) && StepName(name)
    ensures Resolve(root, ctx, Some(PathItem(name, n))) ==
            match NthNamed(Children(At(root, ctx)), name, n)
            case None => Err(ChildNotFound(name, if n > 0 then Some(NatToString(n)) else None))
            case Some(i) => Ok(ctx + [i])
  {
    PathItemSplit(name, n);
    ResolveSingleStep(root, ctx, PathItem(name, n));
    StepNamed(root, ctx, PathItem(name, n), name, n);
  }

  /** An anchor step `#x` restarts at the element whose id is `x` with `~` turned back into `-`, and fails when there is none. */
  lemma ResolveIdStep(root: Node, ctx: seq<nat>, encodedId: string)
    requires ValidPath(root, ctx)
    requires PATH_SEPARATOR !in encodedId && INDEX_SEPARATOR !in encodedId
    ensures Resolve(root, ctx, Some([ID_SELECTOR_PREFIX] + encodedId)) ==
            match FindId(root, RestoreHyphens(encodedId))
            case None => Err(IdNotFound(RestoreHyphens(encodedId)))
            case Some(node) => Ok(node)
  {
    var head := [ID_SELECTOR_PREFIX] + encodedId;
    assert Join([head], INDEX_SEPARATOR) == head;
    SplitJoin([head], INDEX_SEPARATOR);
    assert head[1..] == encodedId;
    assert SplitPathOnce(head) == (head, None);
  }

  /**
   * The round trip: resolving a node's address from <body> gives back that
   * node, when ids are unique and names and ids are addressable.
   */
  lemma {:induction false} ResolveAddress(root: Node, p: seq<nat>)
    requires IsBody(root) && IdsUnique(root)
    requires ValidPath(root, p) && Addressable(root, p)
    ensures Resolve(root, [], Some(Address(root, p))) == Ok(p)
    decreases |p|
  {
    if p == [] {
    } else if Id(At(root, p)) != "" {
      ResolveIdAddress(root, p);
    } else {
      ResolveAddress(root, Parent(p));
      ResolveRelativeAddress(root, p);
    }
  }

  /** An id-bearing node is found again through its `#id` anchor. */
  lemma ResolveIdAddress(root: Node, p: seq<nat>)
    requires IsBody(root) && IdsUnique(root)
    requires ValidPath(root, p) && Addressable(root, p) && p != []
    requires Id(At(root, p)) != ""
    ensures Resolve(root, [], Some(Address(root, p))) == Ok(p)
  {
    var id := Id(At(root, p));
    var encoded := SubstituteHyphens(id);
    assert Address(root, p) == [ID_SELECTOR_PREFIX] + encoded;
    ResolveIdStep(root, [], encoded);
    RestoreSubstituteHyphens(id);
    FindUniqueId(root, p);
  }

  /** A node without an id is found again by resolving its parent's address, then its own step. */
  lemma ResolveRelativeAddress(root: Node, p: seq<nat>)
    requires IsBody(root)
    requires ValidPath(root, p) && Addressable(root, p) && p != []
    requires Id(At(root, p)) == ""
    requires Resolve(root, [], Some(Address(root, Parent(p)))) == Ok(Parent(p))
    ensures Resolve(root, [], Some(Address(root, p))) == Ok(p)
  {
    RelativeAddress(root, p);
    ResolveSiblingStep(root, p);
    AddressEnd(root, Parent(p));
    ResolveAppend(root, Address(root, Parent(p)), Parent(p),
      PathItem(NodeName(At(root, p)), Rank(Children(At(root, Parent(p))), Last(p))), p);
  }

  /** Appending a step to the address of a node continues the walk from that node. */
  lemma ResolveAppend(root: Node, parentPath: string, parent: seq<nat>, item: string, p: seq<nat>)
    requires ValidPath(root, parent)
    requires parentPath == "" <==> parent == []
    requires parentPath != "" ==> parentPath[|parentPath| - 1] != PATH_SEPARATOR
    requires Resolve(root, [], Some(parentPath)) == Ok(parent)
    requires Resolve(root, parent, Some(item)) == Ok(p)
    ensures Resolve(root, [], Some(if parentPath != "" then parentPath + [PATH_SEPARATOR] + item else item)) == Ok(p)
  {
    if parentPath != "" {
      ResolveConcat(root, [], parentPath, item);
    }
  }

  /** The step the encoder writes for a node is resolved back to that node from its parent. */
  lemma ResolveSiblingStep(root: Node, p: seq<nat>)
    requires ValidPath(root, p) && p != []
    requires StepName(NodeName(At(root, p)))
    ensures Resolve(root, Parent(p), Some(PathItem(NodeName(At(root, p)), Rank(Children(At(root, Parent(p))), Last(p)))))
            == Ok(p)
  {
    SiblingFound(root, p);
    ResolveFoundStep(root, Parent(p), NodeName(At(root, p)), Rank(Children(At(root, Parent(p))), Last(p)), Last(p));
    ParentLast(p);
  }

  /** When the scan finds child `i`, the step `name[.n]` leads to it. */
  lemma ResolveFoundStep(root: Node, ctx: seq<nat>, name: string, n: nat, i: nat)
    requires ValidPath(root, ctx) && StepName(name)
    requires NthNamed(Children(At(root, ctx)), name, n) == Some(i)
    ensures Resolve(root, ctx, Some(PathItem(name, n))) == Ok(ctx + [i])
  {
    ResolveNamedStep(root, ctx, name, n);
  }
}

=== FILE: selection.dfy ===
/**
 * The selection payload: `calculateSelection` writes the two endpoints of a
 * range as `start[:offset]-end[:offset]` (the end path `*` when both ends
 * share a container) and puts it, Base64-encoded, into the location hash;
 * `recreateSelection` splits such a payload back into the four values of a
 * range.
 */
module SelectionCodec {
  import opened Wrappers
  import opened Strings
  import opened Dom
  import opened Encoder
  import opened Resolver

  const HASH_PREFIX := "sel:"
  const SELECTOR_SAME := "*"
  const POS_SEPARATOR := ':'
  const RANGE_SEPARATOR := '-'

  /** The two endpoints of a DOM range, each a container node and an offset in it. */
  datatype Range = Range(startContainer: seq<nat>, startOffset: nat, endContainer: seq<nat>, endOffset: nat)

  /** Nothing is selected: both endpoints are the same point. */
  predicate Collapsed(r: Range) {
    r.startContainer == r.endContainer && r.startOffset == r.endOffset
  }

  predicate RangeIn(root: Node, r: Range) {
    ValidPath(root, r.startContainer) && ValidPath(root, r.endContainer)
  }

  /** Why `recreateSelection` fails. */
  datatype DecodeError =
    | MissingRangeSeparator
    | BadOffset(text: string)
    | Unresolved(reason: NotFound)

  /** `encodePart`: a path and an offset, the offset left out when it is 0. */
  function EncodePart(a: string, b: nat): (r: string)
    ensures |r| >= |a| && r[..|a|] == a
    ensures r == a <==> b == 0
  {
    if b == 0 then a else a + [POS_SEPARATOR] + NatToString(b)
  }

  /** `part[1] || 0` as an offset: missing or empty is 0. */
  function OffsetOf(part: seq<string>): (r: Result<nat, DecodeError>)
    requires |part| >= 1
    ensures (|part| == 1 || part[1] == "") ==> r == Ok(0)
  {
    if |part| > 1 && part[1] != "" then
      if AllDigits(part[1]) then Ok(ParseDecimal(part[1]))
      else Err(BadOffset(part[1]))
    else Ok(0)
  }

  /** Splitting an encoded part at `:` gives back the path and the offset. */
  lemma EncodePartRoundTrip(a: string, b: nat)
    requires POS_SEPARATOR !in a
    ensures var part := Split(EncodePart(a, b), POS_SEPARATOR);
            part[0] == a && OffsetOf(part) == Ok(b)
  {
    if b == 0 {
      assert Join([a], POS_SEPARATOR) == a;
      SplitJoin([a], POS_SEPARATOR);
    } else {
      var digits := NatToString(b);
      DigitsHaveNoSeparator(digits, POS_SEPARATOR);
      assert Join([a, digits], POS_SEPARATOR) == EncodePart(a, b);
      SplitJoin([a, digits], POS_SEPARATOR);
      ParseNatToString(b);
    }
  }

  /** The payload `calculateSelection` builds before Base64; none for a collapsed range. */
  function EncodePayload(root: Node, r: Range): (s: Option<string>)
    requires IsBody(root) && RangeIn(root, r)
    ensures s.None? <==> Collapsed(r)
  {
    var sameContainer := r.startContainer == r.endContainer;
    if sameContainer && r.startOffset == r.endOffset then None
    else
      var startPath := Address(root, r.startContainer);
      var endPath := if sameContainer then SELECTOR_SAME else Address(root, r.endContainer);
      Some(EncodePart(startPath, r.startOffset) + [RANGE_SEPARATOR] + EncodePart(endPath, r.endOffset))
  }

  /** The string half of `recreateSelection`: split the payload and resolve both containers from <body>. */
  function DecodePayload(root: Node, s: string): (r: Result<Range, DecodeError>)
    requires IsBody(root)
    ensures r.Ok? ==> RangeIn(root, r.value)
  {
    var parts := Split(s, RANGE_SEPARATOR);
    if |parts| < 2 then Err(MissingRangeSeparator)
    else
      var start := Split(parts[0], POS_SEPARATOR);
      var end := Split(parts[1], POS_SEPARATOR);
      match Resolve(root, [], Some(start[0]))
      case Err(e) => Err(Unresolved(e))
      case Ok(startContainer) =>
        var endContainer := if end[0] == SELECTOR_SAME then Ok(startContainer) else Resolve(root, [], Some(end[0]));
        match endContainer
        case Err(e) => Err(Unresolved(e))
        case Ok(endContainer) =>
          match OffsetOf(start)
          case Err(e) => Err(e)
          case Ok(startOffset) =>
            match OffsetOf(end)
            case Err(e) => Err(e)
            case Ok(endOffset) => Ok(Range(startContainer, startOffset, endContainer, endOffset))
  }

  // ----- which documents the payload can carry -----

  /** A name that leaves the range and offset separators and the `*` marker unambiguous. */
  predicate NameTransportable(name: string) {
    RANGE_SEPARATOR !in name && POS_SEPARATOR !in name && name != SELECTOR_SAME
  }

  /** An id that leaves the offset separator unambiguous (its hyphens are already substituted). */
  predicate IdTransportable(id: string) {
    POS_SEPARATOR !in id
  }

  /** Every node on the way from <body> to `p` has a transportable name and id. */
  predicate Transportable(root: Node, p: seq<nat>)
    requires ValidPath(root, p)
    decreases |p|
  {
    p == [] || (Transportable(root, Parent(p)) && NameTransportable(NodeName(At(root, p))) && IdTransportable(Id(At(root, p))))
  }

  /** A transportable address holds neither separator and is never the `*` marker. */
  lemma {:induction false} AddressTransportable(root: Node, p: seq<nat>)
    requires IsBody(root) && ValidPath(root, p) && Addressable(root, p) && Transportable(root, p)
    ensures RANGE_SEPARATOR !in Address(root, p) && POS_SEPARATOR !in Address(root, p)
    ensures Address(root, p) != SELECTOR_SAME
    decreases |p|
  {
    if p != [] && Id(At(root, p)) == "" {
      var parent := Parent(p);
      var index := Rank(Children(At(root, parent)), Last(p));
      var name := NodeName(At(root, p));
      var item := PathItem(name, index);
      AddressTransportable(root, parent);
      RelativeAddress(root, p);
      if index > 0 {
        var digits := NatToString(index);
        DigitsHaveNoSeparator(digits, RANGE_SEPARATOR);
        DigitsHaveNoSeparator(digits, POS_SEPARATOR);
        assert item[|name|] == INDEX_SEPARATOR;
      }
      assert RANGE_SEPARATOR !in item && POS_SEPARATOR !in item && item != SELECTOR_SAME;
      var parentPath := Address(root, parent);
      if parentPath != "" {
        assert Address(root, p)[|parentPath|] == PATH_SEPARATOR;
      }
    }
  }

  /** Both ends in one container: the end path is written as exactly `*`. */
  lemma SameContainerMarker(root: Node, r: Range)
    requires IsBody(root) && RangeIn(root, r) && !Collapsed(r)
    requires Addressable(root, r.startContainer) && Transportable(root, r.startContainer)
    requires r.startContainer == r.endContainer
    ensures var parts := Split(EncodePayload(root, r).value, RANGE_SEPARATOR);
            |parts| == 2 && Split(parts[1], POS_SEPARATOR)[0] == SELECTOR_SAME
  {
    var startPart := EncodePart(Address(root, r.startContainer), r.startOffset);
    var endPart := EncodePart(SELECTOR_SAME, r.endOffset);
    PartsSplit(root, r, startPart, endPart);
    EncodePartRoundTrip(SELECTOR_SAME, r.endOffset);
  }

  /** The payload splits at `-` into the two encoded endpoints. */
  lemma PartsSplit(root: Node, r: Range, startPart: string, endPart: string)
    requires IsBody(root) && RangeIn(root, r) && !Collapsed(r)
    requires Addressable(root, r.startContainer) && Transportable(root, r.startContainer)
    requires r.startContainer != r.endContainer ==> Addressable(root, r.endContainer) && Transportable(root, r.endContainer)
    requires startPart == EncodePart(Address(root, r.startContainer), r.startOffset)
    requires endPart == EncodePart(if r.startContainer == r.endContainer then SELECTOR_SAME else Address(root, r.endContainer), r.endOffset)
    ensures EncodePayload(root, r) == Some(startPart + [RANGE_SEPARATOR] + endPart)
    ensures Split(startPart + [RANGE_SEPARATOR] + endPart, RANGE_SEPARATOR) == [startPart, endPart]
  {
    AddressTransportable(root, r.startContainer);
    if r.startContainer != r.endContainer {
      AddressTransportable(root, r.endContainer);
    }
    PartHasNoRangeSeparator(Address(root, r.startContainer), r.startOffset);
    PartHasNoRangeSeparator(if r.startContainer == r.endContainer then SELECTOR_SAME else Address(root, r.endContainer), r.endOffset);
    assert Join([startPart, endPart], RANGE_SEPARATOR) == startPart + [RANGE_SEPARATOR] + endPart;
    SplitJoin([startPart, endPart], RANGE_SEPARATOR);
  }

  lemma PartHasNoRangeSeparator(a: string, b: nat)
    requires RANGE_SEPARATOR !in a
    ensures RANGE_SEPARATOR !in EncodePart(a, b)
  {
    if b != 0 {
      DigitsHaveNoSeparator(NatToString(b), RANGE_SEPARATOR);
    }
  }

  /**
   * The payload round trip: decoding the payload of a non-collapsed range
   * gives back its containers and offsets.
   */
  lemma PayloadRoundTrip(root: Node, r: Range)
    requires IsBody(root) && IdsUnique(root) && RangeIn(root, r) && !Collapsed(r)
    requires Addressable(root, r.startContainer) && Transportable(root, r.startContainer)
    requires Addressable(root, r.endContainer) && Transportable(root, r.endContainer)
    ensures DecodePayload(root, EncodePayload(root, r).value) == Ok(r)
  {
    var same := r.startContainer == r.endContainer;
    var startPath := Address(root, r.startContainer);
    var endPath := if same then SELECTOR_SAME else Address(root, r.endContainer);
    var startPart := EncodePart(startPath, r.startOffset);
    var endPart := EncodePart(endPath, r.endOffset);
    PartsSplit(root, r, startPart, endPart);
    AddressTransportable(root, r.startContainer);
    AddressTransportable(root, r.endContainer);
    EncodePartRoundTrip(startPath, r.startOffset);
    EncodePartRoundTrip(endPath, r.endOffset);
    ResolveAddress(root, r.startContainer);
    ResolveAddress(root, r.endContainer);
  }

  // ----- the location hash -----

  /** `btoa(path).replace(/=/g, '')`'s second half: drop every `=`. */
  function StripPadding(s: string): (r: string)
    ensures '=' !in r && |r| <= |s|
    ensures '=' !in s ==> r == s
  {
    if s == [] then []
    else (if s[0] == '=' then [] else [s[0]]) + StripPadding(s[1..])
  }

  /** Stripping works character by character: it distributes over concatenation. */
  lemma {:induction false} StripPaddingAppend(a: string, b: string)
    ensures StripPadding(a + b) == StripPadding(a) + StripPadding(b)
    decreases |a|
  {
    if a == [] {
      assert a + b == b;
    } else {
      assert (a + b)[0] == a[0] && (a + b)[1..] == a[1..] + b;
      StripPaddingAppend(a[1..], b);
    }
  }

  /** Base64 text followed by its `=` padding loses exactly the padding. */
  lemma StripTrailingPadding(s: string, k: nat)
    requires k <= |s| && '=' !in s[..k]
    requires forall j :: k <= j < |s| ==> s[j] == '='
    ensures StripPadding(s) == s[..k]
  {
    assert s == s[..k] + s[k..];
    StripPaddingAppend(s[..k], s[k..]);
    OnlyPadding(s[k..]);
  }

  lemma {:induction false} OnlyPadding(s: string)
    requires forall j :: 0 <= j < |s| ==> s[j] == '='
    ensures StripPadding(s) == []
    decreases |s|
  {
    if s != [] {
      OnlyPadding(s[1..]);
    }
  }

  /** The hash fragment `calculateSelection` writes for a payload, given the Base64 encoder. */
  function HashToken(payload: string, btoa: string -> string): (r: string)
    ensures |r| >= |HASH_PREFIX| && r[..|HASH_PREFIX|] == HASH_PREFIX
    ensures '=' !in r[|HASH_PREFIX|..]
  {
    var r := HASH_PREFIX + StripPadding(btoa(payload));
    assert r[|HASH_PREFIX|..] == StripPadding(btoa(payload));
    r
  }

  /** `document.location`, reduced to its hash; `writes` counts assignments to it. */
  class Location {
    var hash: string
    ghost var writes: nat

    constructor (hash: string)
      ensures this.hash == hash && writes == 0
    {
      this.hash := hash;
      writes := 0;
    }

    /** `location.hash = fragment`: the browser stores it behind a `#`. */
    method SetHash(fragment: string)
      modifies this
      ensures hash == "#" + fragment && writes == old(writes) + 1
    {
      hash := "#" + fragment;
      writes := writes + 1;
    }
  }

  /**
   * `calculateSelection` for the current range (`None` when there is none):
   * encode it and write the hash, unless nothing is selected or the hash
   * already holds this token.
   */
  method CalculateSelection(root: Node, selection: Option<Range>, btoa: string -> string, location: Location)
    requires IsBody(root)
    requires selection.Some? ==> RangeIn(root, selection.value)
    modifies location
    ensures selection.None? || Collapsed(selection.value) ==> location.hash == old(location.hash) && location.writes == old(location.writes)
    ensures selection.Some? && !Collapsed(selection.value) ==>
              var fragment := "#" + HashToken(EncodePayload(root, selection.value).value, btoa);
              location.hash == fragment &&
              location.writes == old(location.writes) + (if old(location.hash) == fragment then 0 else 1)
  {
    if selection.None? {
      return;
    }
    var r := selection.value;
    var sameContainer := r.startContainer == r.endContainer;
    if sameContainer && r.startOffset == r.endOffset {
      return;
    }
    var startPath := PathToContainer(root, r.startContainer);
    var endPath := SELECTOR_SAME;
    if !sameContainer {
      endPath := PathToContainer(root, r.endContainer);
    }
    var path := EncodePart(startPath, r.startOffset) + [RANGE_SEPARATOR] + EncodePart(endPath, r.endOffset);
    var encodedPath := HASH_PREFIX + StripPadding(btoa(path));
    if location.hash != "#" + encodedPath {
      location.SetHash(encodedPath);
    }
  }

  /** Encoding the same unchanged selection twice writes the hash at most once. */
  method CalculateSelectionTwice(root: Node, selection: Option<Range>, btoa: string -> string, location: Location)
    requires IsBody(root)
    requires selection.Some? ==> RangeIn(root, selection.value)
    modifies location
    ensures location.writes <= old(location.writes) + 1
  {
    CalculateSelection(root, selection, btoa, location);
    ghost var afterFirst := location.writes;
    CalculateSelection(root, selection, btoa, location);
    assert location.writes == afterFirst;
  }
}

=== FILE: strings.dfy ===
/**
 * The few JavaScript string operations the path codec relies on:
 * `indexOf` and `split` with a one-character separator, decimal number
 * formatting and parsing, and the `-`/`~` substitution applied to ids.
 */
module Strings {

  /** `s.indexOf(c)`: the first position of `c` in `s`, or -1. */
  function IndexOf(s: string, c: char): (i: int)
    ensures -1 <= i < |s|
    ensures i == -1 <==> c !in s
    ensures 0 <= i ==> s[i] == c && forall j :: 0 <= j < i ==> s[j] != c
  {
    if s == [] then -1
    else if s[0] == c then 0
    else
      var j := IndexOf(s[1..], c);
      if j == -1 then -1 else j + 1
  }

  /** The position of the first separator is fixed by the text before it. */
  lemma IndexOfAfterPrefix(a: string, c: char, b: string)
    requires c !in a
    ensures IndexOf(a + [c] + b, c) == |a|
  {
    var s := a + [c] + b;
    assert s[|a|] == c;
    assert forall j :: 0 <= j < |a| ==> s[j] == a[j];
  }

  /** The inverse of `split`: the parts with the separator between them. */
  function Join(parts: seq<string>, sep: char): string
    requires |parts| >= 1
  {
    if |parts| == 1 then parts[0] else parts[0] + [sep] + Join(parts[1..], sep)
  }

  /** `s.split(sep)` for a one-character separator. */
  function Split(s: string, sep: char): (parts: seq<string>)
    ensures |parts| >= 1
    decreases |s|
  {
    var i := IndexOf(s, sep);
    if i == -1 then [s] else [s[..i]] + Split(s[i + 1..], sep)
  }

  /** A split that finds the separator peels off the text before it. */
  lemma SplitStep(s: string, sep: char)
    requires sep in s
    ensures Split(s, sep) == [s[..IndexOf(s, sep)]] + Split(s[IndexOf(s, sep) + 1..], sep)
  {
  }

  /** No part of a split holds the separator. */
  lemma {:induction false} SplitHasNoSeparator(s: string, sep: char)
    ensures forall k :: 0 <= k < |Split(s, sep)| ==> sep !in Split(s, sep)[k]
    decreases |s|
  {
    if sep in s {
      var i := IndexOf(s, sep);
      var parts, rest := Split(s, sep), Split(s[i + 1..], sep);
      SplitStep(s, sep);
      SplitHasNoSeparator(s[i + 1..], sep);
      HeadHasNoSeparator(s, sep);
      forall k | 0 <= k < |parts|
        ensures sep !in parts[k]
      {
        if k > 0 {
          assert parts[k] == rest[k - 1];
        }
      }
    }
  }

  /** The text before the first separator holds none. */
  lemma HeadHasNoSeparator(s: string, sep: char)
    requires sep in s
    ensures sep !in s[..IndexOf(s, sep)]
  {
    var i := IndexOf(s, sep);
    assert forall j :: 0 <= j < i ==> s[..i][j] == s[j];
  }

  /** Joining the parts of a split gives the string back. */
  lemma {:induction false} JoinSplit(s: string, sep: char)
    ensures Join(Split(s, sep), sep) == s
    decreases |s|
  {
    if sep in s {
      var i := IndexOf(s, sep);
      var parts, head, rest := Split(s, sep), s[..i], Split(s[i + 1..], sep);
      SplitStep(s, sep);
      JoinSplit(s[i + 1..], sep);
      assert parts[0] == head && parts[1..] == rest;
      assert Join(parts, sep) == head + [sep] + Join(rest, sep);
      assert s == head + [sep] + s[i + 1..];
    }
  }

  /** Splitting undoes joining when no part holds the separator. */
  lemma {:induction false} SplitJoin(parts: seq<string>, sep: char)
    requires |parts| >= 1
    requires forall k :: 0 <= k < |parts| ==> sep !in parts[k]
    ensures Split(Join(parts, sep), sep) == parts
    decreases |parts|
  {
    if |parts| == 1 {
      assert sep !in parts[0];
    } else {
      var head, rest := parts[0], parts[1..];
      assert sep !in head;
      var tail := Join(rest, sep);
      SplitJoin(rest, sep);
      SplitAfterPrefix(head, sep, tail);
      assert [head] + rest == parts;
    }
  }

  /** A string that starts with a separator-free head splits into that head and the split of the rest. */
  lemma SplitAfterPrefix(head: string, sep: char, tail: string)
    requires sep !in head
    ensures Split(head + [sep] + tail, sep) == [head] + Split(tail, sep)
  {
    var s := head + [sep] + tail;
    IndexOfAfterPrefix(head, sep, tail);
    assert s[..|head|] == head;
    assert s[|head| + 1..] == tail;
    SplitStep(s, sep);
  }

  predicate IsDigit(c: char) {
    '0' <= c <= '9'
  }

  /** Every character is a decimal digit. */
  predicate AllDigits(s: string)
    decreases |s|
  {
    s == [] || (AllDigits(s[..|s| - 1]) && IsDigit(s[|s| - 1]))
  }

  /** A non-empty run of decimal digits. */
  predicate IsDecimal(s: string) {
    |s| > 0 && AllDigits(s)
  }

  function DigitChar(d: nat): (c: char)
    requires d < 10
    ensures IsDigit(c)
  {
    ('0' as int + d) as char
  }

  function DigitValue(c: char): (d: nat)
    requires IsDigit(c)
    ensures d < 10 && DigitChar(d) == c
  {
    c as int - '0' as int
  }

  /** JavaScript's conversion of a non-negative integer to its decimal string. */
  function NatToString(n: nat): (s: string)
    ensures IsDecimal(s)
    ensures s[0] == '0' <==> n == 0
    ensures |s| > 1 ==> s[0] != '0'
    decreases n
  {
    if n < 10 then
      assert [DigitChar(n)][..0] == [];
      [DigitChar(n)]
    else
      var s := NatToString(n / 10) + [DigitChar(n % 10)];
      assert s[..|s| - 1] == NatToString(n / 10);
      assert s[0] == NatToString(n / 10)[0];
      s
  }

  /** The value of a string of decimal digits (leading zeros allowed). */
  function ParseDecimal(s: string): nat
    requires AllDigits(s)
    decreases |s|
  {
    if s == [] then 0 else 10 * ParseDecimal(s[..|s| - 1]) + DigitValue(s[|s| - 1])
  }

  lemma {:induction false} ParseNatToString(n: nat)
    ensures ParseDecimal(NatToString(n)) == n
    decreases n
  {
    if n >= 10 {
      var s := NatToString(n);
      ParseNatToString(n / 10);
      assert s[..|s| - 1] == NatToString(n / 10);
      assert DigitValue(DigitChar(n % 10)) == n % 10;
    } else {
      assert [DigitChar(n)][..0] == [];
      assert DigitValue(DigitChar(n)) == n;
    }
  }

  /** A string of digits holds none of the separators of the path syntax. */
  lemma {:induction false} DigitsHaveNoSeparator(s: string, c: char)
    requires AllDigits(s) && !IsDigit(c)
    ensures c !in s
    decreases |s|
  {
    if s != [] {
      DigitsHaveNoSeparator(s[..|s| - 1], c);
      assert s == s[..|s| - 1] + [s[|s| - 1]];
    }
  }

  /** `id.replace(/\-/g, '~')`: hyphens become tildes, nothing else changes. */
  function SubstituteHyphens(id: string): (r: string)
    ensures |r| == |id| && '-' !in r
    ensures forall c :: c != '-' && c != '~' ==> (c in r <==> c in id)
  {
    var r := seq(|id|, k requires 0 <= k < |id| => if id[k] == '-' then '~' else id[k]);
    assert forall c :: c != '-' && c != '~' && c in id ==> c in r by {
      forall c | c != '-' && c != '~' && c in id ensures c in r {
        var k :| 0 <= k < |id| && id[k] == c;
        assert r[k] == c;
      }
    }
    r
  }

  /** `s.replace(/~/g, '-')`: tildes become hyphens. */
  function RestoreHyphens(s: string): (r: string)
    ensures |r| == |s|
  {
    seq(|s|, k requires 0 <= k < |s| => if s[k] == '~' then '-' else s[k])
  }

  /** The restored text holds no `~`, and every other character stays in place. */
  lemma RestoredHyphens(s: string)
    ensures '~' !in RestoreHyphens(s)
    ensures forall k :: 0 <= k < |s| && s[k] != '~' ==> RestoreHyphens(s)[k] == s[k]
  {
    var r := RestoreHyphens(s);
    assert forall k :: 0 <= k < |r| ==> r[k] != '~';
  }

  /** The substitution is undone exactly when the id holds no tilde of its own. */
  lemma RestoreSubstituteHyphens(id: string)
    ensures RestoreHyphens(SubstituteHyphens(id)) == id <==> '~' !in id
  {
    var r := RestoreHyphens(SubstituteHyphens(id));
    if '~' !in id {
      assert forall k :: 0 <= k < |id| ==> r[k] == id[k];
    } else {
      var k :| 0 <= k < |id| && id[k] == '~';
      assert r[k] == '-';
    }
  }
}

=== FILE: wrappers.dfy ===
/** Option and Result, used for JavaScript's `undefined` and for thrown errors. */
module Wrappers {

  datatype Option<+T> = None | Some(value: T)

  datatype Result<+T, +E> = Ok(value: T) | Err(error: E)
}
